=== FILE: README.md ===
# User account service — a functional model in Dafny

This project models the decision layer of a small user-account REST
service (Express + Mongoose): registration, login, profile read and
update, password change, the admin user listing and account deletion,
together with the bearer-token authentication middleware, the role gate,
the terminal error handler and the JSON response envelope.

The document database is replaced by an abstract `Db`: the user records,
a `map<Id, User>`, and the next id its id generator hands out. The
generator only counts up, as ObjectIds never repeat. Every request handler
is a pure function from the records and the request to the new records and
the reply: `(store, request) -> Outcome`. An `Outcome` either replies
through the envelope or forwards a thrown error to the error handler.
`Routes.Serve` composes the middleware chains of the user routes over the
`Db`. The service-wide invariants are lemmas over `Serve`:

- emails stay unique, and every stored id was handed out by the generator;
- an id whose record was deleted is never stored again, so a deleted
  user's token is refused for good;
- failed requests leave the records unchanged;
- no reply carries a password;
- a deactivated user's token is refused;
- only admins reach the listing.

Modules, one per source component:

| module | file | models |
|---|---|---|
| `Wrappers` | wrappers.dfy | `Option` for absent (`undefined`/`null`) values |
| `ResponseHandler` | response_handler.dfy | utils/responseHandler.js |
| `ErrorHandler` | error_handler.dfy | middlewares/errorHandler.js |
| `UserStore` | user_store.dfy | the user records and the queries the handlers issue |
| `Tokens` | tokens.dfy | the claims signed into a session token |
| `Pagination` | pagination.dfy | the page arithmetic of the listing |
| `Auth` | auth.dfy | middlewares/auth.js |
| `UserController` | user_controller.dfy | controllers/userController.js |
| `Routes` | routes.dfy | the middleware chains of routes/userRoutes.js |

Abstractions:

- **Password hashing** is an ideal one-way function. `PasswordHash = Digest(plain)`,
  and a digest matches exactly the password it was computed from.
- **Tokens.** A token is the claims it was signed over (`Signed(Claims)`).
  Verification is a parameter `verify: string -> Option<Claims>`, where
  `None` means the library threw (bad signature or expired).
- **Clock.** The clock is a `now: Time` parameter.
- **`parseInt`** yields an `Option<nat>`, with `None` for `NaN`.
- **Ids.** An id is a natural number; the generator's next id is part of
  the `Db`. Register receives it as a parameter and, should it already be
  stored, `save` throws the database's duplicate-key error on `_id`.
- **`findOne({ email })`** returns the earliest-inserted match. This is the
  smallest id, because the generator only counts up. On a valid store there
  is only one match.
- **Listing order.** The listing sorts by `createdAt` descending. Equal
  timestamps put the later insertion (larger id) first; the database
  leaves that tie order open.

The messages follow the code. For example, login refuses an inactive
account with its own message, "Account is deactivated"
(controllers/userController.js:63). That differs from the "Invalid email or
password" of lines 58 and 69.

## Model

| member | source | states |
|---|---|---|
| ResponseHandler.Success | utils/responseHandler.js:2-8 | a success envelope with `data` as given; message defaults to "Success" and status to 200 |
| ResponseHandler.Error | utils/responseHandler.js:10-16 | an error envelope; message defaults to "Internal server error" and status to 500; the `errors` key is present iff the argument is truthy (any array, even empty) |
| ResponseHandler.FormatIssues | utils/responseHandler.js:19-23 | one `{field, message, value}` entry per validator issue, same length, same order |
| ResponseHandler.ValidationError | utils/responseHandler.js:18-30 | always 400 "Validation failed", with the i-th entry built from the i-th issue |
| ResponseHandler.ValidationErrorRoundTrip | utils/responseHandler.js:19-23 | formatting loses nothing: every issue can be read back from the reply, in order |
| ResponseHandler.EnvelopesDistinguishable | utils/responseHandler.js:2-16 | no success envelope equals an error envelope; only success envelopes have a `data` key |
| ErrorHandler.FirstMatch | middlewares/errorHandler.js:3-41 | reference first-match: the category returned matches, and it is `Fallback` or one of those listed |
| ErrorHandler.CategoryOf | middlewares/errorHandler.js:7-34 | the branch selected by the chain of tests is one whose test holds of the error, and no branch before it in source order has a test that holds |
| ErrorHandler.CategoryIsFirstMatch | middlewares/errorHandler.js:3-41 | the chain of tests selects exactly what first-match over the source order selects |
| ErrorHandler.DuplicateMessage | middlewares/errorHandler.js:16-20 | `<field> '<value>' already exists` from the first key of `keyValue` (`undefined` for both when there is none) |
| ErrorHandler.SubErrorEntries | middlewares/errorHandler.js:8-11 | one `{field, message}` entry per sub-error, in order, with no `value` |
| ErrorHandler.Handle | middlewares/errorHandler.js:3-41 | exactly one error envelope: 400 validation with one `{field, message}` entry per sub-error, in order, and no `value`; 400 duplicate key; 400 "Invalid resource ID"; 401 "Invalid token" / "Token expired"; else `statusCode` or 500 and `message` or "Internal server error" |
| ErrorHandler.ValidationShadowsDuplicateKey | middlewares/errorHandler.js:7-20 | a ValidationError that also has code 11000 takes the validation branch |
| ErrorHandler.NotFound | middlewares/errorHandler.js:43-45 | always 404 "Route <url> not found" |
| UserStore.Document | controllers/userController.js:56 | a loaded record keeps every field; the password is present iff the query selected it |
| UserStore.Strip | controllers/userController.js:84 | clearing the password of a loaded document removes the password and keeps every other field |
| UserStore.StripUndoesSelect | controllers/userController.js:84 | loading with the password and then clearing it gives the default projection |
| UserStore.FindByEmail | controllers/userController.js:13 | finds nothing iff no record has the email; otherwise a record with that email, the earliest inserted |
| UserStore.FindByEmailUnique | controllers/userController.js:13 | on a valid store the lookup finds the one owner of the email |
| UserStore.IdText | controllers/userController.js:19-26 | an id written out in decimal digits, one digit exactly for ids below 10 |
| UserStore.IdTextInjective | controllers/userController.js:19-26 | different ids are written differently, so a duplicate-key message names the one colliding id |
| UserStore.NewestFirst | controllers/userController.js:174-176 | every record exactly once, ordered by creation time descending (ties: later inserted first) |
| UserStore.NewestFirstDistinct | controllers/userController.js:174-176 | a newest-first listing repeats no id |
| UserStore.PrependNewest | controllers/userController.js:176 | putting the newest record before a newest-first listing of the rest lists the whole store newest-first |
| Pagination.OrDefault | controllers/userController.js:170-171 | `parseInt(x)` or the default: an unparsable or zero value falls back to the default; the result is positive |
| Pagination.Window | controllers/userController.js:177-178 | at most `limit` items, each the item `skip` places further along the listing |
| Pagination.PageCount | controllers/userController.js:186 | the least page count whose pages hold `total` records; zero iff there are no records |
| Pagination.PageOfIndexInRange | controllers/userController.js:186 | page `k / limit + 1` of a record at index `k` is within the page count |
| Pagination.EveryItemOnOnePage | controllers/userController.js:170-186 | the k-th record is on page `k / limit + 1` (and on no other page) at slot `k % limit`, within the page count |
| Pagination.ItemOnSomePage | controllers/userController.js:172-186 | some page in range lists each record |
| Tokens.ClaimsOf | controllers/userController.js:29-33 | token claims are the user's id, email and role |
| Auth.BearerToken | middlewares/auth.js:9-13 | a token is found iff the header is present and starts with the exact, case-sensitive `Bearer `; the header is that prefix followed by the token |
| Auth.BearerRoundTrip | middlewares/auth.js:13 | parsing `Bearer ` + t gives back t |
| Auth.BearerSchemeIsExact | middlewares/auth.js:9 | `bearer ...` and `Bearer...` (no space) are refused; the bare prefix gives an empty token |
| Auth.Authenticate | middlewares/auth.js:5-35 | the rejection order (no token; token fails to verify; user not found; account deactivated), each 401 with its message; continues with the stored user iff every check passes |
| Auth.Authorize | middlewares/auth.js:37-44 | passes the user through unchanged iff their role is among the allowed ones, else 403 "Access forbidden. Insufficient permissions." |
| UserController.NewUser | controllers/userController.js:19-37 | the new record has the generator's id, the given names and email, a hash of the given password, the default role, is active, and was created and last logged in now |
| UserController.IdCollision | controllers/userController.js:26 | a `save` under an id already stored throws the database's duplicate-key error, naming `_id`, which the error handler classifies as a duplicate key |
| UserController.RegisterAsWritten | controllers/userController.js:8-46 | register as written: a taken email gives 409 "User with this email already exists" with no change; an id already stored forwards the `_id` duplicate-key error with no change |
| UserController.RegisterAsWrittenDisclosesHash | controllers/userController.js:39-42 | every successful registration as written returns the stored password hash |
| UserController.RegisterAsWrittenExample | controllers/userController.js:39-42 | a first registration into an empty store returns the digest of "secret1" |
| UserController.Register | controllers/userController.js:8-46 | a taken email gives 409 "User with this email already exists" and no change; an id already stored makes `save` throw with no change; otherwise exactly one new record is added under the given id (its `id` field that id, created and last logged in now) and all others are unchanged; reply 201 with the password-free user and claims (new id, email, default role) |
| UserController.RegisterStripsAsWritten | controllers/userController.js:39-42 | the corrected register differs from the one as written only in the returned user's password |
| UserController.Login | controllers/userController.js:51-93 | checks existence, then the active flag, then the password, with their 401 messages and no change; success sets only that user's lastLogin and returns the user without a password plus the user's claims |
| UserController.LoginSucceedsIff | controllers/userController.js:56-89 | on a valid store, login succeeds iff an active user with that email has that password |
| UserController.LoginHidesWhichCredentialFailed | controllers/userController.js:57-70 | an unknown email and a wrong password produce identical outcomes |
| UserController.GetProfile | controllers/userController.js:98-105 | 200 with the caller's stored record without the password; `null` data iff the record is gone; store unchanged |
| UserController.ApplyChanges | controllers/userController.js:114-117 | each of firstName, lastName and email is replaced iff its new value is truthy; no other field changes |
| UserController.UpdateProfile | controllers/userController.js:110-137 | 409 "Email already in use" with no change iff a truthy new email differs from the caller's and is taken; otherwise only the caller's record gets the truthy fields; every other record is unchanged |
| UserController.UpdateProfilePreservesValid | controllers/userController.js:119-131 | with the caller's record as authentication loaded it, an update keeps emails unique |
| UserController.ChangePassword | controllers/userController.js:142-163 | a wrong current password gives 400 "Current password is incorrect" with no change; otherwise only the caller's hash is replaced by one matching the new password; a missing record throws to the error handler |
| UserController.ChangePasswordThenLogin | controllers/userController.js:150-157 | after a change the old password is refused at login and the new one accepted |
| UserController.Documents | controllers/userController.js:174-175 | the password-free documents of the listed ids, one per id, in order |
| UserController.WindowOfDocuments | controllers/userController.js:177-178 | a window of the documents is the documents of the same window of ids |
| UserController.PageOfUsers | controllers/userController.js:174-178 | `.skip(skip).limit(limit)`: the page holds `min(limit, listed - skip)` users (none past the end), the i-th being the password-free document of the listed id `skip + i`; on a newest-first listing they are distinct stored users, newest first |
| UserController.WindowIsPageFromStore | controllers/userController.js:174-178 | any window of the newest-first listing holds distinct stored users, newest first |
| UserController.ListingOf | controllers/userController.js:170-189 | the listing payload: at most `limit` password-free users, the window at `(page-1)*limit` of the given order, pagination {page, ceil(total/limit), total}; stored users newest first when the order is the newest-first listing |
| UserController.GetAllUsers | controllers/userController.js:168-193 | at most `limit` users; skip = (page-1)*limit into the newest-first listing; pagination is {current: page, pages: ceil(total/limit), total: store size}; store unchanged |
| UserController.EveryUserOnSomePage | controllers/userController.js:170-188 | every stored user is listed on some page between 1 and the page count |
| UserController.DeleteAccount | controllers/userController.js:198-205 | removes the caller's record and nothing else; 200 with `null` data |
| Routes.Settle | routes/userRoutes.js:24-36 | a handler's own reply is sent unchanged; a thrown error is replied by the error handler; the records are the handler's |
| Routes.Protected | routes/userRoutes.js:28-36 | GET and PUT /profile, PUT /change-password and DELETE /profile run getProfile, updateProfile, changePassword and deleteAccount for the authenticated user; no protected route adds a record or draws an id; the listing answers 403 to non-admins and runs the listing handler for admins |
| Routes.Serve | routes/userRoutes.js:24-36 | POST /register and POST /login run register (with the generator's next id) and login, without authentication; protected routes consult authentication first and a refusal changes nothing; an authenticated request runs the protected handler; the id generator advances exactly when a registration passes the email check |
| Routes.ProtectedPreservesValid | routes/userRoutes.js:28-36 | each protected handler, run for the user authentication loaded, keeps records keyed by id, emails unique and every id already handed out |
| Routes.ServeAddsOnlyNextId | routes/userRoutes.js:24-36 | a request adds at most the record under the generator's next id, and then moves the generator past it; the generator never goes back |
| Routes.ServePreservesValid | routes/userRoutes.js:24-36 | every request keeps records keyed by id, emails unique and every stored id already handed out |
| Routes.VacatedIdStaysVacant | routes/userRoutes.js:24-36 | an id that was handed out and whose record is gone stays absent after any request |
| Routes.DeletedAccountTokenRefused | middlewares/auth.js:17-21 | after a user deletes their account and any other request follows, their still-verifying token gets 401 "Invalid token. User not found." on every protected route |
| Routes.FailedRequestLeavesStoreUnchanged | routes/userRoutes.js:24-36 | any request that ends in an error envelope leaves the records unchanged |
| Routes.RepliesNeverCarryPassword | routes/userRoutes.js:24-36 | no reply on any route carries a password |
| Routes.DeactivatedUserLockedOut | middlewares/auth.js:23-25 | a still-valid token of a deactivated user gets 401 "Account is deactivated." on every protected route, with no change |
| Routes.ListingNeedsAdmin | routes/userRoutes.js:36 | an authenticated non-admin gets 403 on the listing; an admin reaches the handler |
| Routes.RegisterTwice | controllers/userController.js:13-16 | a second registration of an email gets 409, and exactly one user holds the email |
| Routes.LoginTokenAuthenticates | middlewares/auth.js:13-28 | the claims returned by login name the user who logged in; that token, once verified, authenticates as the user's current record |

## Left out

- server.js: the Express setup, CORS, body parsing, the database connection, `listen` and the root banner. This is wiring and I/O.
- The request validators of `middlewares/validation.js` are not part of this model. Their rules are unknown, so the model accepts any body whose fields are strings (a missing field, a number, a boolean or an object cannot be represented), and `ResponseHandler.ValidationError` is modelled for any list of issues whose values are strings or absent (`undefined`).
- models/User.js is not part of this model: schema validators, email lower-casing, `updatedAt`, and the pre-save hashing hook. Hashing is an ideal function applied when a password is stored.
- utils/jwt.js is not part of this model. Signing, secrets and expiry are abstracted: a token is the claims it was signed over, and verification is a parameter.
- bcrypt salts, cost factor and timing behaviour are not modelled.
- UserController.ChangePasswordThenLogin: hashing is modelled as injective, so the old password is refused after any change. bcrypt reads only the first 72 bytes of a password; two passwords that agree there hash alike, and the old one would still log in (controllers/userController.js:67). The model does not promise anything about that case.
- Database failures other than an `_id` collision are not produced by the handlers: a failed `save` for other reasons, the duplicate-key error of a concurrent registration race, and a CastError on a malformed id. The error handler classifies them when they reach it.
- Routes.FailedRequestLeavesStoreUnchanged: holds partly because no modelled handler fails after a write. In the source, register saves the new user (controllers/userController.js:26) before `generateToken` (:29) and a second `save` (:37); a throw from either reaches the error handler with the user already stored, and the model does not produce those throws.
- Auth.Authenticate: the outer `catch` (500 "Authentication failed.") is not modelled, because nothing before the inner `try` can throw in the model. A lookup error inside the inner `try` would also read "Invalid token."; ids here are naturals, so no malformed-id lookup exists.
- Pagination.OrDefault: `parseInt` results are naturals. Negative page or limit values are not modelled; the database rejects a negative skip, and a negative limit has its own driver meaning.
- UserController.NewUser: `createdAt` and `lastLogin` take the same clock reading. The source takes two readings, one per save.
- ErrorHandler.Handle: a duplicate-key error without `keyValue`, or a validation error without `errors`, would make the handler itself throw. Both objects are modelled as always present. Values of `keyValue` are taken as already rendered strings.
- ResponseHandler.Error: of the falsy `errors` arguments, only `null`/absent is modelled (as `None`). `false`, `0` and `""` are not. A message passed explicitly as `null` is not modelled.
- Roles are the two the records use, `user` and `admin`. `authorize` is given roles of that type, not arbitrary strings.
- `console.error` logging in the error handler.
- UserStore.NewestFirst: ties in `createdAt` are ordered by larger id first. The database does not fix that order.

## Findings

| source | as written | input that shows it | evidently intended | confidence | as-written member | corrected member |
|---|---|---|---|---|---|---|
| controllers/userController.js:39-42 | register replies with the document it just saved, which still holds the password hash. Login clears the field before replying (line 84); register does not. | any registration with an unused email, e.g. into an empty store `{firstName: "Ada", lastName: "Lovelace", email: "a@x.com", password: "secret1"}` | the returned user carries no password, as for login and every other reply | medium, not executed; rests on the User model (not part of this model) having no serialisation transform that drops the field | UserController.RegisterAsWritten | UserController.Register |

`Routes.Serve` uses the corrected `UserController.Register`.
`UserController.RegisterAsWrittenDisclosesHash` proves the disclosure for
every successful registration as written.
`UserController.RegisterStripsAsWritten` proves that the correction changes
nothing else.

=== FILE: auth.dfy ===
/** The authentication middleware (bearer header, token verification, user
    lookup, active check) and the role gate. */
module Auth {
  import opened Wrappers
  import opened UserStore
  import opened Tokens
  import opened ResponseHandler

  /** The scheme prefix, compared case-sensitively, space included. */
  const Prefix: string := "Bearer "

  /** The token of an `Authorization` header: present only when the header
      is present, non-empty and starts with `Bearer `; it is the header with
      those 7 characters removed. */
  function BearerToken(header: Option<string>): (t: Option<string>)
    ensures t.Some? <==> header.Some? && |header.value| >= 7 && header.value[..7] == Prefix
    ensures t.Some? ==> header.value == Prefix + t.value
  {
    if header.None? || header.value == "" || !(Prefix <= header.value) then None
    else Some(header.value[7..])
  }

  /** Parsing gives back exactly the token that was put after the prefix. */
  lemma BearerRoundTrip(token: string)
    ensures BearerToken(Some(Prefix + token)) == Some(token)
  {
    assert (Prefix + token)[..7] == Prefix;
    assert (Prefix + token)[7..] == token;
  }

  /** The scheme test is case-sensitive and needs the space. */
  lemma BearerSchemeIsExact()
    ensures BearerToken(Some("bearer abc")) == None
    ensures BearerToken(Some("Bearerabc")) == None
    ensures BearerToken(Some("Bearer ")) == Some("")
  {
    assert "bearer abc"[0] != Prefix[0];
    assert "Bearerabc"[6] != Prefix[6];
    assert "Bearer "[..7] == Prefix;
  }

  /** A middleware either passes the request on with the user attached, or
      ends it with a reply. */
  datatype Verdict<+D> = Proceed(user: User) | Halt(reply: Reply<D>)

  /** `authenticate`. `verify` stands for the token library: the claims of a
      token whose signature and expiry check out, `None` when verification
      throws. */
  function Authenticate<D>(store: Users, header: Option<string>, verify: string -> Option<Claims>): (v: Verdict<D>)
    ensures BearerToken(header).None? ==>
              v == Halt(Error(Some("Access denied. No token provided."), Some(401), None))
    ensures BearerToken(header).Some? && verify(BearerToken(header).value).None? ==>
              v == Halt(Error(Some("Invalid token."), Some(401), None))
    ensures BearerToken(header).Some? && verify(BearerToken(header).value).Some? ==>
              var id := verify(BearerToken(header).value).value.userId;
              && (id !in store ==> v == Halt(Error(Some("Invalid token. User not found."), Some(401), None)))
              && (id in store && !store[id].isActive ==> v == Halt(Error(Some("Account is deactivated."), Some(401), None)))
    ensures v.Proceed? <==>
              && BearerToken(header).Some?
              && verify(BearerToken(header).value).Some?
              && verify(BearerToken(header).value).value.userId in store
              && store[verify(BearerToken(header).value).value.userId].isActive
    ensures v.Proceed? ==> v.user == store[verify(BearerToken(header).value).value.userId]
    ensures v.Halt? ==> v.reply.status == 401 && !v.reply.body.IsSuccess()
  {
    match BearerToken(header)
    case None => Halt(Error(Some("Access denied. No token provided."), Some(401), None))
    case Some(token) =>
      match verify(token)
      case None => Halt(Error(Some("Invalid token."), Some(401), None))
      case Some(decoded) =>
        if decoded.userId !in store then Halt(Error(Some("Invalid token. User not found."), Some(401), None))
        else if !store[decoded.userId].isActive then Halt(Error(Some("Account is deactivated."), Some(401), None))
        else Proceed(store[decoded.userId])
  }

  /** `authorize(...roles)`: the request passes unchanged exactly when the
      attached user's role is one of `roles`. */
  function Authorize<D>(roles: seq<Role>, user: User): (v: Verdict<D>)
    ensures v == Proceed(user) <==> user.role in roles
    ensures v.Halt? <==> user.role !in roles
    ensures v.Halt? ==>
              v.reply == Error(Some("Access forbidden. Insufficient permissions."), Some(403), None)
  {
    if user.role !in roles then Halt(Error(Some("Access forbidden. Insufficient permissions."), Some(403), None))
    else Proceed(user)
  }
}

=== FILE: error_handler.dfy ===
/** The terminal error middleware: a first-match classification of a thrown
    error value into exactly one error envelope, plus the 404 fallback. */
module ErrorHandler {
  import opened Wrappers
  import opened ResponseHandler

  /** One entry of a Mongoose validation error's `errors` object, in the
      object's key order. */
  datatype SubError = SubError(path: string, message: string)

  /** The fields of a thrown error the handler inspects. `keyValue` lists the
      duplicate-key object's entries in key order (values already rendered as
      strings); `statusCode` and `message` are `None` when absent. */
  datatype Failure = Failure(
    name: string,
    code: Option<int>,
    keyValue: seq<(string, string)>,
    errors: seq<SubError>,
    statusCode: Option<nat>,
    message: Option<string>)

  /** The branches of the handler, in source order. */
  datatype Category = Validation | DuplicateKey | Cast | BadToken | ExpiredToken | Fallback

  /** Whether the test guarding a category's branch holds of `err`, taken on
      its own, regardless of the branches before it. */
  predicate Matches(err: Failure, c: Category) {
    match c
    case Validation => err.name == "ValidationError"
    case DuplicateKey => err.code == Some(11000)
    case Cast => err.name == "CastError"
    case BadToken => err.name == "JsonWebTokenError"
    case ExpiredToken => err.name == "TokenExpiredError"
    case Fallback => true
  }

  /** The branch order of the handler. */
  const Order: seq<Category> := [Validation, DuplicateKey, Cast, BadToken, ExpiredToken, Fallback]

  /** The reference reading of "first match": the first category of `cs`
      whose test holds, or `Fallback` when none does. */
  function FirstMatch(err: Failure, cs: seq<Category>): (c: Category)
    ensures c == Fallback || c in cs
    ensures Matches(err, c)
  {
    if |cs| == 0 then Fallback
    else if Matches(err, cs[0]) then cs[0]
    else FirstMatch(err, cs[1..])
  }

  /** The category the handler's chain of `if`s selects: one whose test
      holds, and no category before it in the branch order has a test that
      holds. */
  function CategoryOf(err: Failure): (c: Category)
    ensures Matches(err, c)
    ensures forall i :: 0 <= i < |Order| && Order[i] == c ==>
              forall j :: 0 <= j < i ==> !Matches(err, Order[j])
  {
    if err.name == "ValidationError" then Validation
    else if err.code == Some(11000) then DuplicateKey
    else if err.name == "CastError" then Cast
    else if err.name == "JsonWebTokenError" then BadToken
    else if err.name == "TokenExpiredError" then ExpiredToken
    else Fallback
  }

  /** The `if` chain is exactly first-match over the branch order. */
  lemma CategoryIsFirstMatch(err: Failure)
    ensures CategoryOf(err) == FirstMatch(err, Order)
  {
    var o1 := [DuplicateKey, Cast, BadToken, ExpiredToken, Fallback];
    var o2 := [Cast, BadToken, ExpiredToken, Fallback];
    var o3 := [BadToken, ExpiredToken, Fallback];
    var o4 := [ExpiredToken, Fallback];
    assert Order[1..] == o1 && o1[1..] == o2 && o2[1..] == o3 && o3[1..] == o4 && o4[1..] == [Fallback];
    assert FirstMatch(err, o4) == if Matches(err, ExpiredToken) then ExpiredToken else Fallback;
    assert FirstMatch(err, o3) == if Matches(err, BadToken) then BadToken else FirstMatch(err, o4);
    assert FirstMatch(err, o2) == if Matches(err, Cast) then Cast else FirstMatch(err, o3);
    assert FirstMatch(err, o1) == if Matches(err, DuplicateKey) then DuplicateKey else FirstMatch(err, o2);
  }

  /** `field 'value' already exists`, naming the first key of `keyValue`;
      with no key, both read as `undefined`, as string interpolation of a
      missing key does. */
  function DuplicateMessage(keyValue: seq<(string, string)>): (m: string)
    ensures |keyValue| > 0 ==> m == keyValue[0].0 + " '" + keyValue[0].1 + "' already exists"
    ensures |keyValue| == 0 ==> m == "undefined 'undefined' already exists"
  {
    var (field, value) := if |keyValue| > 0 then keyValue[0] else ("undefined", "undefined");
    field + " '" + value + "' already exists"
  }

  /** One `{field, message}` entry per sub-error, in order. */
  function SubErrorEntries(errors: seq<SubError>): (entries: seq<ErrorEntry>)
    ensures |entries| == |errors|
    ensures forall i :: 0 <= i < |errors| ==>
              entries[i] == ErrorEntry(errors[i].path, errors[i].message, None)
  {
    if |errors| == 0 then [] else [ErrorEntry(errors[0].path, errors[0].message, None)] + SubErrorEntries(errors[1..])
  }

  /** The reply each branch produces. */
  function Respond<D>(err: Failure, c: Category): Reply<D> {
    match c
    case Validation => Error(Some("Validation failed"), Some(400), Some(SubErrorEntries(err.errors)))
    case DuplicateKey => Error(Some(DuplicateMessage(err.keyValue)), Some(400), None)
    case Cast => Error(Some("Invalid resource ID"), Some(400), None)
    case BadToken => Error(Some("Invalid token"), Some(401), None)
    case ExpiredToken => Error(Some("Token expired"), Some(401), None)
    case Fallback =>
      // `err.statusCode || 500` and `err.message || 'Internal server error'`
      var status := if err.statusCode.Some? && err.statusCode.value != 0 then err.statusCode.value else 500;
      var message := if err.message.Some? && err.message.value != "" then err.message.value else "Internal server error";
      Error(Some(message), Some(status), None)
  }

  /** `errorHandler(err, req, res, next)`: exactly one error envelope per
      error, chosen by the first matching branch. */
  function Handle<D>(err: Failure): (r: Reply<D>)
    ensures !r.body.IsSuccess()
    ensures err.name == "ValidationError" ==>
              r.status == 400 && r.body.message == "Validation failed" &&
              r.body.errors.Some? && |r.body.errors.value| == |err.errors| &&
              forall i :: 0 <= i < |err.errors| ==>
                r.body.errors.value[i].field == err.errors[i].path &&
                r.body.errors.value[i].message == err.errors[i].message &&
                r.body.errors.value[i].value.None?
    ensures err.name != "ValidationError" && err.code == Some(11000) ==>
              r.status == 400 && r.body.message == DuplicateMessage(err.keyValue) && r.body.errors.None?
    ensures CategoryOf(err) == Cast ==> r.status == 400 && r.body.message == "Invalid resource ID"
    ensures CategoryOf(err) == BadToken ==> r.status == 401 && r.body.message == "Invalid token"
    ensures CategoryOf(err) == ExpiredToken ==> r.status == 401 && r.body.message == "Token expired"
    ensures CategoryOf(err) == Fallback && err.statusCode.Some? && err.statusCode.value != 0 ==>
              r.status == err.statusCode.value
    ensures CategoryOf(err) == Fallback && (err.statusCode.None? || err.statusCode.value == 0) ==>
              r.status == 500
    ensures CategoryOf(err) == Fallback && err.message.Some? && err.message.value != "" ==>
              r.body.message == err.message.value
    ensures CategoryOf(err) == Fallback && (err.message.None? || err.message.value == "") ==>
              r.body.message == "Internal server error"
    ensures CategoryOf(err) != Validation ==> r.body.errors.None?
  {
    Respond(err, CategoryOf(err))
  }

  /** A validation error that also carries the duplicate-key code takes the
      validation branch: earlier branches win. */
  lemma ValidationShadowsDuplicateKey<D>(err: Failure)
    requires err.name == "ValidationError" && err.code == Some(11000)
    ensures var r: Reply<D> := Handle(err); r.body.message == "Validation failed" && r.body.errors.Some?
  {
  }

  /** `notFound(req, res, next)`: always 404 naming the requested URL. */
  function NotFound<D>(originalUrl: string): (r: Reply<D>)
    ensures r.status == 404 && !r.body.IsSuccess() && r.body.errors.None?
    ensures r.body.message == "Route " + originalUrl + " not found"
  {
    Error(Some("Route " + originalUrl + " not found"), Some(404), None)
  }
}

=== FILE: pagination.dfy ===
/** The page arithmetic of the admin listing: defaults for the query
    parameters, the skip offset, the page window and the page count. */
module Pagination {
  import opened Wrappers

  /** The query string after `parseInt`: `None` stands for `NaN`. */
  datatype Query = Query(page: Option<nat>, limit: Option<nat>)

  /** `parseInt(x) || default`: both `NaN` and `0` are falsy and fall back to
      the default. */
  function OrDefault(v: Option<nat>, default: nat): (r: nat)
    requires default > 0
    ensures r > 0
    ensures v.Some? && v.value > 0 ==> r == v.value
    ensures v.None? || v.value == 0 ==> r == default
  {
    if v.Some? && v.value != 0 then v.value else default
  }

  function PageOf(q: Query): nat {
    OrDefault(q.page, 1)
  }

  function LimitOf(q: Query): nat {
    OrDefault(q.limit, 10)
  }

  /** `(page - 1) * limit`: the number of records on the earlier pages. */
  function Skip(page: nat, limit: nat): nat
    requires page >= 1
  {
    (page - 1) * limit
  }

  function Min(a: nat, b: nat): nat {
    if a <= b then a else b
  }

  /** `.skip(skip).limit(limit)` on an ordered listing. */
  function Window<T>(xs: seq<T>, skip: nat, limit: nat): (w: seq<T>)
    ensures |w| <= limit
    ensures |w| == if skip >= |xs| then 0 else Min(limit, |xs| - skip)
    ensures forall i :: 0 <= i < |w| ==> w[i] == xs[skip + i]
  {
    if skip >= |xs| then [] else xs[skip..Min(skip + limit, |xs|)]
  }

  /** Quotient and remainder of natural division, as Dafny defines them. */
  lemma DivMod(k: nat, d: nat)
    requires d > 0
    ensures k == (k / d) * d + k % d && 0 <= k % d < d
  {
  }

  lemma MulMonotone(a: nat, b: nat, d: nat)
    requires a <= b
    ensures a * d <= b * d
  {
  }

  /** A non-zero multiple of `d` is at least `d` away from zero. */
  lemma {:induction false} MultipleStep(x: int, d: nat)
    ensures x >= 1 ==> x * d >= d
    ensures x <= -1 ==> x * d + d <= 0
  {
    if x >= 1 {
      MulMonotone(1, x, d);
    } else if x <= -1 {
      MulMonotone(1, -x, d);
      assert (-x) * d == -(x * d);
    }
  }

  /** A number lying in the `a`-th block of `d` has quotient `a`. */
  lemma {:induction false} DivUnique(k: nat, d: nat, a: nat)
    requires d > 0
    requires a * d <= k < a * d + d
    ensures k / d == a && k % d == k - a * d
  {
    var q := k / d;
    DivMod(k, d);
    MultipleStep(q - a, d);
    assert (q - a) * d == q * d - a * d;
  }

  /** `Math.ceil(total / limit)`: the least number of pages of `limit`
      records that holds `total` records. */
  function PageCount(total: nat, limit: nat): (pages: nat)
    requires limit > 0
    ensures pages * limit >= total
    ensures pages > 0 ==> (pages - 1) * limit < total
    ensures total == 0 <==> pages == 0
  {
    var pages := (total + limit - 1) / limit;
    DivMod(total + limit - 1, limit);
    assert pages * limit == total + limit - 1 - (total + limit - 1) % limit;
    assert pages > 0 ==> (pages - 1) * limit == pages * limit - limit;
    pages
  }

  /** The page number of the `k`-th record: `k / limit + 1`. */
  lemma {:induction false} PageOfIndexInRange(total: nat, limit: nat, k: nat)
    requires limit > 0 && k < total
    ensures k / limit + 1 <= PageCount(total, limit)
  {
    var q := k / limit;
    DivMod(k, limit);
    var pages := PageCount(total, limit);
    MultipleStep(q + 1 - pages, limit);
    assert (q + 1 - pages) * limit == q * limit + limit - pages * limit;
  }

  /** Every record of the listing is on exactly one page: page
      `k / limit + 1`, at position `k % limit`, and that page is within the
      reported page count. */
  lemma {:induction false} EveryItemOnOnePage<T>(xs: seq<T>, limit: nat, k: nat)
    requires limit > 0 && k < |xs|
    ensures var page := k / limit + 1;
            && page <= PageCount(|xs|, limit)
            && k % limit < |Window(xs, Skip(page, limit), limit)|
            && Window(xs, Skip(page, limit), limit)[k % limit] == xs[k]
    ensures forall p: nat :: p >= 1 ==>
              (Skip(p, limit) <= k < Skip(p, limit) + limit <==> p == k / limit + 1)
  {
    var q := k / limit;
    DivMod(k, limit);
    PageOfIndexInRange(|xs|, limit, k);
    assert Skip(q + 1, limit) == q * limit;
    forall p: nat | p >= 1
      ensures Skip(p, limit) <= k < Skip(p, limit) + limit <==> p == q + 1
    {
      if Skip(p, limit) <= k < Skip(p, limit) + limit {
        DivUnique(k, limit, p - 1);
      }
    }
  }

  /** Some page in range lists the `k`-th record. */
  lemma ItemOnSomePage<T>(xs: seq<T>, limit: nat, k: nat)
    requires limit > 0 && k < |xs|
    ensures exists page: nat :: 1 <= page <= PageCount(|xs|, limit) && xs[k] in Window(xs, Skip(page, limit), limit)
  {
    EveryItemOnOnePage(xs, limit, k);
    var page := k / limit + 1;
    assert Window(xs, Skip(page, limit), limit)[k % limit] == xs[k];
  }
}

=== FILE: response_handler.dfy ===
/** The uniform JSON envelope every reply of the service is wrapped in:
    `{success: true, message, data}` or `{success: false, message, errors?}`. */
module ResponseHandler {
  import opened Wrappers

  /** One element of an `errors` array. `value` is present only in the
      entries built by `ValidationError`, and there only when the validator
      reported a value (`undefined` drops the key from the JSON). */
  datatype ErrorEntry = ErrorEntry(field: string, message: string, value: Option<string>)

  /** The JSON body. `data == None` is a JSON `null`; `errors == None` means
      the `errors` key is absent. */
  datatype Body<+D> =
    | SuccessBody(message: string, data: Option<D>)
    | ErrorBody(message: string, errors: Option<seq<ErrorEntry>>)
  {
    /** The value of the `success` key. */
    predicate IsSuccess() {
      SuccessBody?
    }
  }

  /** An HTTP status code together with the JSON body sent with it. */
  datatype Reply<+D> = Reply(status: nat, body: Body<D>)

  /** The keys of the JSON object a body serialises to. */
  function Keys<D>(b: Body<D>): set<string> {
    match b
    case SuccessBody(_, _) => {"success", "message", "data"}
    case ErrorBody(_, errors) => {"success", "message"} + (if errors.Some? then {"errors"} else {})
  }

  /** One issue reported by the request validator: the field path, the
      validator's message and the offending value (`None` for a missing
      field, whose value is `undefined`). */
  datatype ValidatorIssue = ValidatorIssue(path: string, msg: string, value: Option<string>)

  /** `success(res, data = null, message = 'Success', statusCode = 200)`;
      an omitted argument is `None`. */
  function Success<D>(data: Option<D>, message: Option<string>, statusCode: Option<nat>): (r: Reply<D>)
    ensures r.body.IsSuccess() && Keys(r.body) == {"success", "message", "data"}
    ensures r.body.data == data
    ensures message.None? ==> r.body.message == "Success"
    ensures message.Some? ==> r.body.message == message.value
    ensures statusCode.None? ==> r.status == 200
    ensures statusCode.Some? ==> r.status == statusCode.value
  {
    Reply(statusCode.GetOr(200), SuccessBody(message.GetOr("Success"), data))
  }

  /** `error(res, message = 'Internal server error', statusCode = 500, errors = null)`.
      The `errors` key is spread into the object only when the argument is
      truthy; every array, the empty one included, is truthy. */
  function Error<D>(message: Option<string>, statusCode: Option<nat>, errors: Option<seq<ErrorEntry>>): (r: Reply<D>)
    ensures !r.body.IsSuccess()
    ensures "errors" in Keys(r.body) <==> errors.Some?
    ensures r.body.errors == errors
    ensures message.None? ==> r.body.message == "Internal server error"
    ensures message.Some? ==> r.body.message == message.value
    ensures statusCode.None? ==> r.status == 500
    ensures statusCode.Some? ==> r.status == statusCode.value
  {
    Reply(statusCode.GetOr(500), ErrorBody(message.GetOr("Internal server error"), errors))
  }

  /** The `{field, message, value}` entry for one validator issue. */
  function FormatIssue(issue: ValidatorIssue): ErrorEntry {
    ErrorEntry(issue.path, issue.msg, issue.value)
  }

  /** The validator's issues formatted one-for-one, in order. */
  function FormatIssues(issues: seq<ValidatorIssue>): (entries: seq<ErrorEntry>)
    ensures |entries| == |issues|
    ensures forall i :: 0 <= i < |issues| ==> entries[i] == FormatIssue(issues[i])
  {
    if |issues| == 0 then [] else [FormatIssue(issues[0])] + FormatIssues(issues[1..])
  }

  /** `validationError(res, errors)`: always 400 "Validation failed" with one
      formatted entry per issue. */
  function ValidationError<D>(issues: seq<ValidatorIssue>): (r: Reply<D>)
    ensures r.status == 400 && !r.body.IsSuccess()
    ensures r.body.message == "Validation failed"
    ensures r.body.errors.Some? && |r.body.errors.value| == |issues|
    ensures forall i :: 0 <= i < |issues| ==>
              r.body.errors.value[i] == ErrorEntry(issues[i].path, issues[i].msg, issues[i].value)
  {
    Reply(400, ErrorBody("Validation failed", Some(FormatIssues(issues))))
  }

  /** Recovers the validator issues from the entries `ValidationError` sent. */
  function IssueOf(e: ErrorEntry): ValidatorIssue {
    ValidatorIssue(e.field, e.message, e.value)
  }

  /** No information is lost in formatting: the issues can be read back from
      the reply, in order. */
  lemma {:induction false} ValidationErrorRoundTrip<D>(issues: seq<ValidatorIssue>)
    ensures var r: Reply<D> := ValidationError(issues);
            r.body.errors.Some? &&
            forall i :: 0 <= i < |issues| ==> IssueOf(r.body.errors.value[i]) == issues[i]
  {
  }

  /** A success envelope and an error envelope never coincide, whatever the
      arguments: the `success` flag tells them apart. */
  lemma EnvelopesDistinguishable<D>(data: Option<D>, m1: Option<string>, s1: Option<nat>,
                                    m2: Option<string>, s2: Option<nat>, errors: Option<seq<ErrorEntry>>)
    ensures Success(data, m1, s1).body != Error<D>(m2, s2, errors).body
    ensures "data" in Keys(Success(data, m1, s1).body)
    ensures "data" !in Keys(Error<D>(m2, s2, errors).body)
  {
  }
}

=== FILE: routes.dfy ===
/** The request chains of the user routes: public register/login, every
    other route behind `authenticate`, the listing also behind
    `authorize('admin')`, and thrown errors settled by the error handler.
    The invariants of the whole service are stated over `Serve`. */
module Routes {
  import opened Wrappers
  import opened UserStore
  import opened Tokens
  import opened ResponseHandler
  import opened Pagination
  import opened Auth
  import opened UserController
  import ErrorHandler

  datatype Endpoint =
    | PostRegister(registration: Registration)
    | PostLogin(email: string, password: string)
    | GetProfileRoute
    | PutProfile(changes: ProfileChanges)
    | PutChangePassword(currentPassword: string, newPassword: string)
    | DeleteProfile
    | GetUsers(query: Query)

  datatype Request = Request(endpoint: Endpoint, authorization: Option<string>)

  predicate IsProtected(e: Endpoint) {
    !e.PostRegister? && !e.PostLogin?
  }

  /** The database after a request and the reply sent for it. */
  datatype Exchange = Exchange(db: Db, reply: Reply<Payload>)

  /** A handler's reply, or the error handler's reply for what it threw;
      `nextId` is the id generator's state afterwards. */
  function Settle(o: Outcome, nextId: Id): (x: Exchange)
    ensures x.db == Db(o.store, nextId)
    ensures o.Respond? ==> x.reply == o.reply
    ensures o.Forward? ==> x.reply == ErrorHandler.Handle(o.failure)
  {
    match o
    case Respond(s, r) => Exchange(Db(s, nextId), r)
    case Forward(s, f) => Exchange(Db(s, nextId), ErrorHandler.Handle(f))
  }

  /** The handler behind a protected route, for the authenticated `user`.
      No protected route adds a record or draws an id, and the listing is
      refused with 403 to anyone but an admin. */
  function Protected(db: Db, e: Endpoint, user: User): (x: Exchange)
    requires IsProtected(e)
    ensures x.db.nextId == db.nextId && x.db.users.Keys <= db.users.Keys
    ensures e.GetProfileRoute? ==> x == Settle(GetProfile(db.users, user), db.nextId)
    ensures e.PutProfile? ==> x == Settle(UpdateProfile(db.users, user, e.changes), db.nextId)
    ensures e.PutChangePassword? ==>
              x == Settle(ChangePassword(db.users, user, e.currentPassword, e.newPassword), db.nextId)
    ensures e.DeleteProfile? ==> x == Settle(DeleteAccount(db.users, user), db.nextId)
    ensures e.GetUsers? && user.role != AdminRole ==>
              x == Exchange(db, Error(Some("Access forbidden. Insufficient permissions."), Some(403), None))
    ensures e.GetUsers? && user.role == AdminRole ==> x == Settle(GetAllUsers(db.users, e.query), db.nextId)
  {
    match e
    case GetProfileRoute => Settle(GetProfile(db.users, user), db.nextId)
    case PutProfile(c) => Settle(UpdateProfile(db.users, user, c), db.nextId)
    case PutChangePassword(current, next) => Settle(ChangePassword(db.users, user, current, next), db.nextId)
    case DeleteProfile => Settle(DeleteAccount(db.users, user), db.nextId)
    case GetUsers(q) =>
      match Authorize<Payload>([AdminRole], user)
      case Halt(r) => Exchange(db, r)
      case Proceed(u) => Settle(GetAllUsers(db.users, q), db.nextId)
  }

  /** One request through its middleware chain. `now` is the clock reading
      and `verify` the token library's verification. Register and login are
      public; every other route runs only for the user `authenticate`
      attaches, and a refusal there changes nothing. The id generator
      advances exactly when a registration gets past the email check. */
  function Serve(db: Db, req: Request, now: Time, verify: string -> Option<Claims>): (x: Exchange)
    ensures req.endpoint.PostRegister? ==>
              x.db.nextId == if EmailTaken(db.users, req.endpoint.registration.email) then db.nextId else db.nextId + 1
    ensures !req.endpoint.PostRegister? ==> x.db.nextId == db.nextId
    ensures req.endpoint.PostRegister? ==>
              x == Settle(Register(db.users, req.endpoint.registration, now, db.nextId), x.db.nextId)
    ensures req.endpoint.PostLogin? ==>
              x == Settle(Login(db.users, req.endpoint.email, req.endpoint.password, now), db.nextId)
    ensures IsProtected(req.endpoint) && Authenticate<Payload>(db.users, req.authorization, verify).Halt? ==>
              x == Exchange(db, Authenticate<Payload>(db.users, req.authorization, verify).reply)
    ensures IsProtected(req.endpoint) && Authenticate<Payload>(db.users, req.authorization, verify).Proceed? ==>
              x == Protected(db, req.endpoint, Authenticate<Payload>(db.users, req.authorization, verify).user)
  {
    match req.endpoint
    case PostRegister(b) =>
      var next := if EmailTaken(db.users, b.email) then db.nextId else db.nextId + 1;
      Settle(Register(db.users, b, now, db.nextId), next)
    case PostLogin(email, pw) => Settle(Login(db.users, email, pw, now), db.nextId)
    case _ =>
      match Authenticate<Payload>(db.users, req.authorization, verify)
      case Halt(r) => Exchange(db, r)
      case Proceed(u) => Protected(db, req.endpoint, u)
  }

  /** A protected handler run for a user's current record keeps the
      database's invariants. */
  lemma ProtectedPreservesValid(db: Db, e: Endpoint, user: User)
    requires Consistent(db) && IsProtected(e) && user.id in db.users && db.users[user.id] == user
    ensures Consistent(Protected(db, e, user).db)
  {
    if e.PutProfile? {
      UpdateProfilePreservesValid(db.users, user, e.changes);
    }
  }

  /** A request adds at most one record, under the id the generator hands
      out, and a record added that way moves the generator past it. */
  lemma ServeAddsOnlyNextId(db: Db, req: Request, now: Time, verify: string -> Option<Claims>)
    ensures var x := Serve(db, req, now, verify);
            && x.db.nextId >= db.nextId
            && (forall id :: id in x.db.users ==> id in db.users || id == db.nextId)
            && (db.nextId in x.db.users && db.nextId !in db.users ==> x.db.nextId == db.nextId + 1)
  {
    if IsProtected(req.endpoint) {
      var v := Authenticate<Payload>(db.users, req.authorization, verify);
      if v.Proceed? {
        assert Serve(db, req, now, verify) == Protected(db, req.endpoint, v.user);
      }
    }
  }

  /** Every request keeps the database's invariants: records keyed by their
      ids, emails unique, every stored id already handed out. */
  lemma ServePreservesValid(db: Db, req: Request, now: Time, verify: string -> Option<Claims>)
    requires Consistent(db)
    ensures Consistent(Serve(db, req, now, verify).db)
  {
    ServeAddsOnlyNextId(db, req, now, verify);
    if IsProtected(req.endpoint) {
      var v := Authenticate<Payload>(db.users, req.authorization, verify);
      if v.Proceed? {
        assert Serve(db, req, now, verify) == Protected(db, req.endpoint, v.user);
        ProtectedPreservesValid(db, req.endpoint, v.user);
      }
    } else if req.endpoint.PostRegister? {
      assert Serve(db, req, now, verify).db.users == Register(db.users, req.endpoint.registration, now, db.nextId).store;
    }
  }

  /** An id that was handed out and whose record is gone never comes back:
      no later request stores a record under it. */
  lemma VacatedIdStaysVacant(db: Db, req: Request, now: Time, verify: string -> Option<Claims>, id: Id)
    requires id < db.nextId && id !in db.users
    ensures var x := Serve(db, req, now, verify);
            id < x.db.nextId && id !in x.db.users
  {
    ServeAddsOnlyNextId(db, req, now, verify);
  }

  /** After a user deletes their account, whatever request comes next, their
      still-verifying token is refused with "Invalid token. User not found."
      on every protected route: the next registrant never inherits the id. */
  lemma DeletedAccountTokenRefused(db: Db, header: Option<string>, verify: string -> Option<Claims>,
                                   later: Request, e: Endpoint, t1: Time, t2: Time, t3: Time)
    requires Consistent(db) && IsProtected(e)
    requires Authenticate<Payload>(db.users, header, verify).Proceed?
    ensures var db1 := Serve(db, Request(DeleteProfile, header), t1, verify).db;
            var db2 := Serve(db1, later, t2, verify).db;
            Serve(db2, Request(e, header), t3, verify).reply ==
              Error(Some("Invalid token. User not found."), Some(401), None)
  {
    var u := Authenticate<Payload>(db.users, header, verify).user;
    var claims := verify(BearerToken(header).value).value;
    assert u.id == claims.userId;
    var db1 := Serve(db, Request(DeleteProfile, header), t1, verify).db;
    assert Serve(db, Request(DeleteProfile, header), t1, verify) == Protected(db, DeleteProfile, u);
    assert db1 == Db(db.users - {u.id}, db.nextId);
    VacatedIdStaysVacant(db1, later, t2, verify, u.id);
  }

  /** A request that ends in an error reply leaves the store as it was. */
  lemma FailedRequestLeavesStoreUnchanged(db: Db, req: Request, now: Time, verify: string -> Option<Claims>)
    ensures var x := Serve(db, req, now, verify);
            !x.reply.body.IsSuccess() ==> x.db.users == db.users
  {
  }

  /** No reply, success or error, on any route carries a password. */
  lemma RepliesNeverCarryPassword(db: Db, req: Request, now: Time, verify: string -> Option<Claims>)
    ensures NoPasswordIn(Serve(db, req, now, verify).reply)
  {
    if IsProtected(req.endpoint) {
      var v := Authenticate<Payload>(db.users, req.authorization, verify);
      if v.Proceed? {
        assert Serve(db, req, now, verify) == Protected(db, req.endpoint, v.user);
      }
    }
  }

  /** A token whose user has since been deactivated is refused on every
      protected route, although the token itself still verifies. */
  lemma DeactivatedUserLockedOut(db: Db, req: Request, now: Time, verify: string -> Option<Claims>, token: string)
    requires IsProtected(req.endpoint) && req.authorization == Some(Prefix + token)
    requires verify(token).Some? && verify(token).value.userId in db.users
    requires !db.users[verify(token).value.userId].isActive
    ensures Serve(db, req, now, verify) ==
              Exchange(db, Error(Some("Account is deactivated."), Some(401), None))
  {
    BearerRoundTrip(token);
  }

  /** Only admins reach the listing: anyone else authenticated gets 403. */
  lemma ListingNeedsAdmin(db: Db, q: Query, header: Option<string>, now: Time, verify: string -> Option<Claims>)
    requires Authenticate<Payload>(db.users, header, verify).Proceed?
    ensures var x := Serve(db, Request(GetUsers(q), header), now, verify);
            var role := Authenticate<Payload>(db.users, header, verify).user.role;
            && (role != AdminRole ==> x.db == db && x.reply.status == 403)
            && (role == AdminRole ==> x == Settle(GetAllUsers(db.users, q), db.nextId))
  {
    var v := Authenticate<Payload>(db.users, header, verify);
    assert Serve(db, Request(GetUsers(q), header), now, verify) == Protected(db, GetUsers(q), v.user);
  }

  /** Registering an email twice: the second attempt gets 409 and exactly one
      user holds that email. */
  lemma RegisterTwice(db: Db, first: Registration, second: Registration, t1: Time, t2: Time,
                      verify: string -> Option<Claims>)
    requires Consistent(db) && !EmailTaken(db.users, first.email) && second.email == first.email
    ensures var db1 := Serve(db, Request(PostRegister(first), None), t1, verify).db;
            var x2 := Serve(db1, Request(PostRegister(second), None), t2, verify);
            && x2.reply.status == 409 && x2.db == db1
            && exists id :: id in db1.users && db1.users[id].email == first.email
                            && forall j :: j in db1.users && db1.users[j].email == first.email ==> j == id
  {
    var db1 := Serve(db, Request(PostRegister(first), None), t1, verify).db;
    ServePreservesValid(db, Request(PostRegister(first), None), t1, verify);
    var id := db.nextId;
    assert id !in db.users;
    assert db1.users[id].email == first.email;
    assert EmailTaken(db1.users, first.email);
  }

  /** The token a successful login returns names the user; presented back as
      a bearer token that the library verifies to those claims, it
      authenticates as that user's current record. */
  lemma LoginTokenAuthenticates(store: Users, email: string, password: string, now: Time,
                                verify: string -> Option<Claims>, token: string)
    requires Valid(store)
    requires Login(store, email, password, now).reply.body.IsSuccess()
    ensures var o := Login(store, email, password, now);
            var claims := o.reply.body.data.value.token.claims;
            && claims.userId in o.store && o.store[claims.userId].email == email
            && (verify(token) == Some(claims) ==>
                  Authenticate<Payload>(o.store, Some(Prefix + token), verify) == Proceed(o.store[claims.userId]))
  {
    BearerRoundTrip(token);
    var id := FindByEmail(store, email).value;
  }
}

=== FILE: tokens.dfy ===
/** The claims a session token carries. Signing, expiry and signature checks
    belong to the token library, which is abstracted: a reply carries the
    token as the claims it was signed over, and verification is a parameter
    of the authentication middleware. */
module Tokens {
  import opened UserStore

  datatype Claims = Claims(userId: Id, email: string, role: Role)

  /** The token `generateToken(claims)` returns. */
  datatype Token = Signed(claims: Claims)

  /** The claims the handlers sign: the user's id, email and role. */
  function ClaimsOf(u: User): (c: Claims)
    ensures c.userId == u.id && c.email == u.email && c.role == u.role
  {
    Claims(u.id, u.email, u.role)
  }
}

=== FILE: user_controller.dfy ===
/** The seven request handlers, each a pure transition from the store and
    the request to the new store and the reply (or the error handed to
    `next`). */
module UserController {
  import opened Wrappers
  import opened UserStore
  import opened Tokens
  import opened ResponseHandler
  import opened Pagination
  import ErrorHandler

  datatype PageInfo = PageInfo(current: nat, pages: nat, total: nat)

  /** The `data` of the success replies. */
  datatype Payload =
    | Profile(user: UserDoc)
    | Session(user: UserDoc, token: Token)
    | Listing(users: seq<UserDoc>, pagination: PageInfo)

  /** A handler either replies through the envelope or passes a thrown error
      to `next` (and so to the error handler). */
  datatype Outcome =
    | Respond(store: Users, reply: Reply<Payload>)
    | Forward(store: Users, failure: ErrorHandler.Failure)

  /** Whether any user document in a payload carries a password. */
  predicate Discloses(p: Payload) {
    match p
    case Profile(u) => u.password.Some?
    case Session(u, _) => u.password.Some?
    case Listing(us, _) => exists i :: 0 <= i < |us| && us[i].password.Some?
  }

  predicate NoPasswordIn(r: Reply<Payload>) {
    r.body.SuccessBody? && r.body.data.Some? ==> !Discloses(r.body.data.value)
  }

  /** The records a store-changing operation did not target are untouched. */
  ghost predicate OthersUnchanged(store: Users, store': Users, id: Id) {
    forall k :: k in store && k != id ==> k in store' && store'[k] == store[k]
  }

  // ---------------------------------------------------------------- register

  datatype Registration = Registration(firstName: string, lastName: string, email: string, password: string)

  /** The record `register` creates under the id `id` the generator handed
      out: default role, active, created and last logged in at `now`. */
  function NewUser(body: Registration, now: Time, id: Id): (u: User)
    ensures u.id == id
    ensures u.firstName == body.firstName && u.lastName == body.lastName && u.email == body.email
    ensures PasswordMatches(u.passwordHash, body.password)
    ensures u.role == UserRole && u.isActive && u.createdAt == now && u.lastLogin == Some(now)
  {
    User(id, body.firstName, body.lastName, body.email, HashPassword(body.password),
         UserRole, true, now, Some(now))
  }

  /** What `save` throws when the new record's `_id` is already stored: the
      database's duplicate-key error on `_id`. */
  function IdCollision(id: Id): (f: ErrorHandler.Failure)
    ensures ErrorHandler.CategoryOf(f) == ErrorHandler.DuplicateKey
    ensures f.keyValue == [("_id", IdText(id))]
  {
    ErrorHandler.Failure("MongoServerError", Some(11000), [("_id", IdText(id))], [], None,
                         Some("E11000 duplicate key error"))
  }

  function Registered(store: Users, body: Registration, now: Time, id: Id, withPassword: bool): Outcome {
    if EmailTaken(store, body.email) then
      Respond(store, Error(Some("User with this email already exists"), Some(409), None))
    else if id in store then
      Forward(store, IdCollision(id))
    else
      var user := NewUser(body, now, id);
      var token := Signed(ClaimsOf(user));
      Respond(store[id := user],
              Success(Some(Session(Document(user, withPassword), token)), Some("User registered successfully"), Some(201)))
  }

  /** `register` as written: the reply carries the document that was just
      saved, which still holds the password hash. `id` is the id the
      database's generator hands out for the new record. */
  function RegisterAsWritten(store: Users, body: Registration, now: Time, id: Id): (o: Outcome)
    ensures EmailTaken(store, body.email) ==>
              o == Respond(store, Error(Some("User with this email already exists"), Some(409), None))
    ensures !EmailTaken(store, body.email) && id in store ==> o == Forward(store, IdCollision(id))
    ensures o.Respond? && o.reply.status == 409 <==> EmailTaken(store, body.email)
    ensures o.Forward? <==> !EmailTaken(store, body.email) && id in store
  {
    Registered(store, body, now, id, true)
  }

  /** Every successful registration as written discloses the stored hash. */
  lemma RegisterAsWrittenDisclosesHash(store: Users, body: Registration, now: Time, id: Id)
    requires !EmailTaken(store, body.email) && id !in store
    ensures var o := RegisterAsWritten(store, body, now, id);
            o.reply.body.data.Some? && o.reply.body.data.value.user.password == Some(HashPassword(body.password))
            && !NoPasswordIn(o.reply)
  {
  }

  /** A concrete instance: the first registration into an empty store. */
  lemma RegisterAsWrittenExample()
    ensures var o := RegisterAsWritten(map[], Registration("Ada", "Lovelace", "a@x.com", "secret1"), 0, 0);
            o.reply.status == 201 && o.reply.body.data.value.user.password == Some(Digest("secret1"))
  {
    assert !EmailTaken(map[], "a@x.com");
  }

  /** `register`, returning the user without the password as the service
      promises for every reply. A taken email is refused with 409; an `id`
      already stored makes `save` throw; otherwise exactly the new record is
      added under `id`. */
  function Register(store: Users, body: Registration, now: Time, id: Id): (o: Outcome)
    ensures EmailTaken(store, body.email) ==>
              o == Respond(store, Error(Some("User with this email already exists"), Some(409), None))
    ensures !EmailTaken(store, body.email) && id in store ==> o == Forward(store, IdCollision(id))
    ensures !EmailTaken(store, body.email) && id !in store ==>
              && o.Respond? && o.store.Keys == store.Keys + {id}
              && OthersUnchanged(store, o.store, id)
              && o.store[id].id == id
              && o.store[id].firstName == body.firstName && o.store[id].lastName == body.lastName
              && o.store[id].email == body.email && PasswordMatches(o.store[id].passwordHash, body.password)
              && o.store[id].role == UserRole && o.store[id].isActive
              && o.store[id].createdAt == now && o.store[id].lastLogin == Some(now)
              && o.reply.status == 201 && o.reply.body.IsSuccess()
              && o.reply.body.message == "User registered successfully"
              && o.reply.body.data == Some(Session(Document(o.store[id], false), Signed(Claims(id, body.email, UserRole))))
    ensures o.Respond? ==> NoPasswordIn(o.reply)
  {
    Registered(store, body, now, id, false)
  }

  /** The corrected handler differs from the one as written only in the
      password of the returned user. */
  lemma RegisterStripsAsWritten(store: Users, body: Registration, now: Time, id: Id)
    requires !EmailTaken(store, body.email) && id !in store
    ensures var fixed, written := Register(store, body, now, id), RegisterAsWritten(store, body, now, id);
            && fixed.store == written.store && fixed.reply.status == written.reply.status
            && fixed.reply.body.message == written.reply.body.message
            && fixed.reply.body.data.value.user == Strip(written.reply.body.data.value.user)
            && fixed.reply.body.data.value.token == written.reply.body.data.value.token
  {
  }

  // ------------------------------------------------------------------- login

  /** `login`: existence, then the active flag, then the password. */
  function Login(store: Users, email: string, password: string, now: Time): (o: Outcome)
    ensures o.Respond?
    ensures !EmailTaken(store, email) ==>
              o.store == store && o.reply == Error(Some("Invalid email or password"), Some(401), None)
    ensures EmailTaken(store, email) ==>
              var id := FindByEmail(store, email).value;
              && (!store[id].isActive ==>
                    o.store == store && o.reply == Error(Some("Account is deactivated"), Some(401), None))
              && (store[id].isActive && !PasswordMatches(store[id].passwordHash, password) ==>
                    o.store == store && o.reply == Error(Some("Invalid email or password"), Some(401), None))
              && (store[id].isActive && PasswordMatches(store[id].passwordHash, password) ==>
                    && o.store == store[id := store[id].(lastLogin := Some(now))]
                    && o.reply.status == 200 && o.reply.body.IsSuccess() && o.reply.body.message == "Login successful"
                    && o.reply.body.data == Some(Session(Document(o.store[id], false), Signed(ClaimsOf(store[id])))))
    ensures NoPasswordIn(o.reply)
  {
    match FindByEmail(store, email)
    case None => Respond(store, Error(Some("Invalid email or password"), Some(401), None))
    case Some(id) =>
      var user := store[id];
      if !user.isActive then Respond(store, Error(Some("Account is deactivated"), Some(401), None))
      else if !PasswordMatches(user.passwordHash, password) then
        Respond(store, Error(Some("Invalid email or password"), Some(401), None))
      else
        var token := Signed(ClaimsOf(user));
        var loggedIn := user.(lastLogin := Some(now));
        StripUndoesSelect(loggedIn);
        Respond(store[id := loggedIn],
                Success(Some(Session(Strip(Document(loggedIn, true)), token)), Some("Login successful"), None))
  }

  /** On a valid store, login succeeds exactly for the active owner of the
      email presenting the right password. */
  lemma LoginSucceedsIff(store: Users, email: string, password: string, now: Time)
    requires Valid(store)
    ensures Login(store, email, password, now).reply.body.IsSuccess() <==>
              exists id :: id in store && store[id].email == email && store[id].isActive
                           && PasswordMatches(store[id].passwordHash, password)
  {
    if EmailTaken(store, email) {
      var id := FindByEmail(store, email).value;
      forall j | j in store && store[j].email == email
        ensures j == id
      {
      }
    }
  }

  /** An unknown email and a wrong password get the very same reply. */
  lemma LoginHidesWhichCredentialFailed(store: Users, unknown: string, id: Id, wrong: string, now: Time)
    requires Valid(store) && !EmailTaken(store, unknown)
    requires id in store && store[id].isActive && !PasswordMatches(store[id].passwordHash, wrong)
    ensures Login(store, unknown, wrong, now) == Login(store, store[id].email, wrong, now)
  {
    FindByEmailUnique(store, id);
  }

  // ------------------------------------------------------------- getProfile

  /** `getProfile`: the caller's current record, without the password;
      `null` if the record is gone. */
  function GetProfile(store: Users, caller: User): (o: Outcome)
    ensures o.Respond? && o.store == store
    ensures o.reply.status == 200 && o.reply.body.IsSuccess()
    ensures o.reply.body.message == "Profile retrieved successfully"
    ensures o.reply.body.data.Some? <==> caller.id in store
    ensures caller.id in store ==> o.reply.body.data == Some(Profile(Document(store[caller.id], false)))
    ensures NoPasswordIn(o.reply)
  {
    var found := if caller.id in store then Some(Profile(Document(store[caller.id], false))) else None;
    Respond(store, Success(found, Some("Profile retrieved successfully"), None))
  }

  // ----------------------------------------------------------- updateProfile

  datatype ProfileChanges = ProfileChanges(firstName: Option<string>, lastName: Option<string>, email: Option<string>)

  /** JavaScript truthiness of an optional string: present and non-empty. */
  predicate Truthy(v: Option<string>) {
    v.Some? && v.value != ""
  }

  /** The update document: only the truthy fields, applied to the record. */
  function ApplyChanges(u: User, c: ProfileChanges): (u': User)
    ensures Truthy(c.firstName) ==> u'.firstName == c.firstName.value
    ensures !Truthy(c.firstName) ==> u'.firstName == u.firstName
    ensures Truthy(c.lastName) ==> u'.lastName == c.lastName.value
    ensures !Truthy(c.lastName) ==> u'.lastName == u.lastName
    ensures Truthy(c.email) ==> u'.email == c.email.value
    ensures !Truthy(c.email) ==> u'.email == u.email
    ensures u' == u.(firstName := u'.firstName, lastName := u'.lastName, email := u'.email)
  {
    var u1 := if Truthy(c.firstName) then u.(firstName := c.firstName.value) else u;
    var u2 := if Truthy(c.lastName) then u1.(lastName := c.lastName.value) else u1;
    if Truthy(c.email) then u2.(email := c.email.value) else u2
  }

  /** The email check runs only for a truthy email that differs from the
      caller's current one. */
  predicate EmailConflict(store: Users, caller: User, c: ProfileChanges) {
    Truthy(c.email) && c.email.value != caller.email && EmailTaken(store, c.email.value)
  }

  /** `updateProfile`. */
  function UpdateProfile(store: Users, caller: User, c: ProfileChanges): (o: Outcome)
    ensures o.Respond?
    ensures EmailConflict(store, caller, c) ==>
              o.store == store && o.reply == Error(Some("Email already in use"), Some(409), None)
    ensures !EmailConflict(store, caller, c) ==>
              && o.reply.status == 200 && o.reply.body.IsSuccess()
              && o.reply.body.message == "Profile updated successfully"
              && (caller.id !in store ==> o.store == store && o.reply.body.data == None)
              && (caller.id in store ==>
                    && o.store == store[caller.id := ApplyChanges(store[caller.id], c)]
                    && o.reply.body.data == Some(Profile(Document(o.store[caller.id], false))))
    ensures o.store.Keys == store.Keys && OthersUnchanged(store, o.store, caller.id)
    ensures NoPasswordIn(o.reply)
  {
    if Truthy(c.email) && c.email.value != caller.email && FindByEmail(store, c.email.value).Some? then
      Respond(store, Error(Some("Email already in use"), Some(409), None))
    else if caller.id !in store then
      Respond(store, Success(None, Some("Profile updated successfully"), None))
    else
      var updated := ApplyChanges(store[caller.id], c);
      Respond(store[caller.id := updated],
              Success(Some(Profile(Document(updated, false))), Some("Profile updated successfully"), None))
  }

  /** With the caller's record as authentication loaded it, a profile update
      keeps emails unique. */
  lemma UpdateProfilePreservesValid(store: Users, caller: User, c: ProfileChanges)
    requires Valid(store) && caller.id in store && store[caller.id] == caller
    ensures Valid(UpdateProfile(store, caller, c).store)
  {
  }

  // ---------------------------------------------------------- changePassword

  /** What `user.comparePassword` throws on when `findById` found nothing. */
  const NullUserFailure: ErrorHandler.Failure :=
    ErrorHandler.Failure("TypeError", None, [], [], None, Some("Cannot read properties of null (reading 'comparePassword')"))

  /** `changePassword`. */
  function ChangePassword(store: Users, caller: User, currentPassword: string, newPassword: string): (o: Outcome)
    ensures caller.id !in store ==> o == Forward(store, NullUserFailure)
    ensures caller.id in store && !PasswordMatches(store[caller.id].passwordHash, currentPassword) ==>
              o == Respond(store, Error(Some("Current password is incorrect"), Some(400), None))
    ensures caller.id in store && PasswordMatches(store[caller.id].passwordHash, currentPassword) ==>
              && o.Respond?
              && o.store.Keys == store.Keys && OthersUnchanged(store, o.store, caller.id)
              && PasswordMatches(o.store[caller.id].passwordHash, newPassword)
              && o.store[caller.id] == store[caller.id].(passwordHash := o.store[caller.id].passwordHash)
              && o.reply.status == 200 && o.reply.body.IsSuccess() && o.reply.body.data == None
              && o.reply.body.message == "Password changed successfully"
  {
    if caller.id !in store then Forward(store, NullUserFailure)
    else
      var user := store[caller.id];
      if !PasswordMatches(user.passwordHash, currentPassword) then
        Respond(store, Error(Some("Current password is incorrect"), Some(400), None))
      else
        Respond(store[caller.id := user.(passwordHash := HashPassword(newPassword))],
                Success(None, Some("Password changed successfully"), None))
  }

  /** After a password change the old password no longer logs in and the new
      one does. */
  lemma ChangePasswordThenLogin(store: Users, caller: User, current: string, next: string, now: Time)
    requires Valid(store) && caller.id in store && store[caller.id].isActive
    requires PasswordMatches(store[caller.id].passwordHash, current) && current != next
    ensures var s := ChangePassword(store, caller, current, next).store;
            && Login(s, store[caller.id].email, current, now).reply.status == 401
            && Login(s, store[caller.id].email, next, now).reply.status == 200
  {
    var s := ChangePassword(store, caller, current, next).store;
    assert s[caller.id].email == store[caller.id].email;
    assert Valid(s);
    FindByEmailUnique(s, caller.id);
  }

  // ------------------------------------------------------------- getAllUsers

  /** The documents of the listed ids, without passwords. */
  function Documents(store: Users, ids: seq<Id>): (docs: seq<UserDoc>)
    requires forall i :: 0 <= i < |ids| ==> ids[i] in store
    ensures |docs| == |ids|
    ensures forall i :: 0 <= i < |ids| ==> docs[i] == Document(store[ids[i]], false)
  {
    if |ids| == 0 then [] else [Document(store[ids[0]], false)] + Documents(store, ids[1..])
  }

  /** `users` are password-free documents of distinct users of the store,
      newest first. */
  ghost predicate PageFromStore(store: Users, users: seq<UserDoc>) {
    && (forall i :: 0 <= i < |users| ==>
          users[i].id in store && users[i] == Document(store[users[i].id], false))
    && (forall i, j :: 0 <= i < j < |users| ==>
          Precedes(users[i].createdAt, users[i].id, users[j].createdAt, users[j].id))
  }

  /** A window of the documents of `ids` holds the documents of the same
      window of `ids`. */
  lemma WindowOfDocuments(store: Users, ids: seq<Id>, skip: nat, limit: nat)
    requires forall i :: 0 <= i < |ids| ==> ids[i] in store
    ensures var w := Window(Documents(store, ids), skip, limit);
            forall i :: 0 <= i < |w| ==> skip + i < |ids| && w[i] == Document(store[ids[skip + i]], false)
                                         && w[i].password.None?
  {
  }

  /** Any window of a newest-first listing is such a page. */
  lemma WindowIsPageFromStore(store: Users, ordered: seq<Id>, skip: nat, limit: nat)
    requires forall i :: 0 <= i < |ordered| ==> ordered[i] in store
    ensures KeyedById(store) && ListsNewestFirst(store, ordered) ==>
              PageFromStore(store, Window(Documents(store, ordered), skip, limit))
  {
    if KeyedById(store) && ListsNewestFirst(store, ordered) {
      WindowOfDocuments(store, ordered, skip, limit);
      var users := Window(Documents(store, ordered), skip, limit);
      forall i | 0 <= i < |users|
        ensures users[i].id == ordered[skip + i]
      {
        assert store[ordered[skip + i]].id == ordered[skip + i];
      }
    }
  }

  /** The users `.skip(skip).limit(limit)` returns from a listing of ids. */
  function PageOfUsers(store: Users, ordered: seq<Id>, skip: nat, limit: nat): (users: seq<UserDoc>)
    requires forall i :: 0 <= i < |ordered| ==> ordered[i] in store
    ensures |users| <= limit
    ensures |users| == if skip >= |ordered| then 0 else Min(limit, |ordered| - skip)
    ensures forall i :: 0 <= i < |users| ==> users[i] == Document(store[ordered[skip + i]], false)
    ensures forall i :: 0 <= i < |users| ==> users[i].password.None?
    ensures KeyedById(store) && ListsNewestFirst(store, ordered) ==> PageFromStore(store, users)
  {
    WindowOfDocuments(store, ordered, skip, limit);
    WindowIsPageFromStore(store, ordered, skip, limit);
    Window(Documents(store, ordered), skip, limit)
  }

  /** `getAllUsers`: page `page` of the newest-first listing, at most `limit`
      users, with the page count and the store size. */
  function GetAllUsers(store: Users, q: Query): (o: Outcome)
    ensures o.Respond? && o.store == store
    ensures o.reply.status == 200 && o.reply.body.IsSuccess()
    ensures o.reply.body.message == "Users retrieved successfully"
    ensures o.reply.body.data.Some? && o.reply.body.data.value.Listing?
    ensures |o.reply.body.data.value.users| <= LimitOf(q)
    ensures o.reply.body.data.value.pagination == PageInfo(PageOf(q), PageCount(|store|, LimitOf(q)), |store|)
    ensures KeyedById(store) ==> PageFromStore(store, o.reply.body.data.value.users)
    ensures o.reply.body.data.value.users ==
              Window(Documents(store, NewestFirst(store)), Skip(PageOf(q), LimitOf(q)), LimitOf(q))
    ensures NoPasswordIn(o.reply)
  {
    var ordered := NewestFirst(store);
    Respond(store, Success(Some(ListingOf(store, ordered, q)), Some("Users retrieved successfully"), None))
  }

  /** The `data` of the listing reply, given the newest-first order. */
  function ListingOf(store: Users, ordered: seq<Id>, q: Query): (p: Payload)
    requires forall i :: 0 <= i < |ordered| ==> ordered[i] in store
    ensures p.Listing? && |p.users| <= LimitOf(q) && !Discloses(p)
    ensures p.pagination == PageInfo(PageOf(q), PageCount(|store|, LimitOf(q)), |store|)
    ensures KeyedById(store) && ListsNewestFirst(store, ordered) ==> PageFromStore(store, p.users)
    ensures p.users == Window(Documents(store, ordered), Skip(PageOf(q), LimitOf(q)), LimitOf(q))
  {
    var page, limit := PageOf(q), LimitOf(q);
    var users := PageOfUsers(store, ordered, Skip(page, limit), limit);
    Listing(users, PageInfo(page, PageCount(|store|, limit), |store|))
  }

  /** Every user of the store is listed on some page in range. */
  lemma {:induction false} EveryUserOnSomePage(store: Users, limit: nat, id: Id)
    requires id in store && limit > 0
    ensures exists page: nat :: 1 <= page <= PageCount(|store|, limit) &&
              Document(store[id], false) in GetAllUsers(store, Query(Some(page), Some(limit))).reply.body.data.value.users
  {
    var ordered := NewestFirst(store);
    assert id in ordered;
    var k :| 0 <= k < |ordered| && ordered[k] == id;
    var all := Documents(store, ordered);
    assert |all| == |store| && all[k] == Document(store[id], false);
    ItemOnSomePage(all, limit, k);
    var page: nat :| 1 <= page <= PageCount(|all|, limit) && all[k] in Window(all, Skip(page, limit), limit);
    var q := Query(Some(page), Some(limit));
    assert PageOf(q) == page && LimitOf(q) == limit;
    var users := GetAllUsers(store, q).reply.body.data.value.users;
    assert users == Window(all, Skip(page, limit), limit);
  }

  // ----------------------------------------------------------- deleteAccount

  /** `deleteAccount`: removes the caller's record and nothing else. */
  function DeleteAccount(store: Users, caller: User): (o: Outcome)
    ensures o.Respond?
    ensures o.store.Keys == store.Keys - {caller.id}
    ensures forall k :: k in o.store ==> o.store[k] == store[k]
    ensures o.reply.status == 200 && o.reply.body.IsSuccess() && o.reply.body.data == None
    ensures o.reply.body.message == "Account deleted successfully"
  {
    Respond(store - {caller.id}, Success(None, Some("Account deleted successfully"), None))
  }
}

=== FILE: user_store.dfy ===
/** The abstract user store that replaces the document database: a map from
    id to user record, with the queries the handlers issue against it. */
module UserStore {
  import opened Wrappers

  /** Store-assigned identifiers. Fresh ids grow, so the smallest id is the
      earliest inserted (the database's natural order). */
  type Id = nat

  /** Abstract clock readings. */
  type Time = nat

  datatype Role = UserRole | AdminRole

  /** Password hashing as an ideal one-way function: a digest matches exactly
      the plain password it was computed from. Salt and cost are not modelled. */
  datatype PasswordHash = Digest(ofPlain: string)

  function HashPassword(plain: string): PasswordHash {
    Digest(plain)
  }

  /** `user.comparePassword(plain)`. */
  predicate PasswordMatches(h: PasswordHash, plain: string) {
    h == HashPassword(plain)
  }

  datatype User = User(
    id: Id,
    firstName: string,
    lastName: string,
    email: string,
    passwordHash: PasswordHash,
    role: Role,
    isActive: bool,
    createdAt: Time,
    lastLogin: Option<Time>)

  type Users = map<Id, User>

  /** The store's invariants: each record sits under its own id, and no two
      records share an email (the database's unique index). */
  predicate Valid(store: Users) {
    KeyedById(store) && UniqueEmails(store)
  }

  predicate KeyedById(store: Users) {
    forall id :: id in store ==> store[id].id == id
  }

  predicate UniqueEmails(store: Users) {
    forall a, b :: a in store && b in store && store[a].email == store[b].email ==> a == b
  }

  predicate EmailTaken(store: Users, email: string) {
    exists id :: id in store && store[id].email == email
  }

  /** A user record as serialised into a reply. `password` is `None` when the
      field is absent from the JSON. */
  datatype UserDoc = UserDoc(
    id: Id,
    firstName: string,
    lastName: string,
    email: string,
    password: Option<PasswordHash>,
    role: Role,
    isActive: bool,
    createdAt: Time,
    lastLogin: Option<Time>)

  /** A record as a query returns it: the password is loaded only when the
      query asks for it (`select('+password')`). */
  function Document(u: User, withPassword: bool): (d: UserDoc)
    ensures d.password.Some? <==> withPassword
    ensures d.password.Some? ==> d.password.value == u.passwordHash
    ensures d.id == u.id && d.firstName == u.firstName && d.lastName == u.lastName && d.email == u.email
    ensures d.role == u.role && d.isActive == u.isActive && d.createdAt == u.createdAt && d.lastLogin == u.lastLogin
  {
    UserDoc(u.id, u.firstName, u.lastName, u.email, if withPassword then Some(u.passwordHash) else None,
            u.role, u.isActive, u.createdAt, u.lastLogin)
  }

  /** `user.password = undefined` on a loaded document. */
  function Strip(d: UserDoc): (s: UserDoc)
    ensures s.password.None?
    ensures s.id == d.id && s.firstName == d.firstName && s.lastName == d.lastName && s.email == d.email
    ensures s.role == d.role && s.isActive == d.isActive && s.createdAt == d.createdAt && s.lastLogin == d.lastLogin
  {
    d.(password := None)
  }

  /** Loading with the password and then stripping it gives the same
      document as the default projection. */
  lemma StripUndoesSelect(u: User)
    ensures Strip(Document(u, true)) == Document(u, false)
  {
  }

  predicate IsLeast(s: set<nat>, m: nat) {
    m in s && forall x :: x in s ==> m <= x
  }

  /** Every non-empty finite set of naturals has a least element. */
  lemma {:induction false} HasLeast(s: set<nat>)
    requires s != {}
    ensures exists m :: IsLeast(s, m)
  {
    var y :| y in s;
    if s == {y} {
      assert IsLeast(s, y);
    } else {
      var rest := s - {y};
      HasLeast(rest);
      var m :| IsLeast(rest, m);
      var least := if y < m then y else m;
      forall x | x in s
        ensures least <= x
      {
        if x != y { assert x in rest; }
      }
      assert IsLeast(s, least);
    }
  }

  /** `User.findOne({ email })`: the earliest inserted record with that
      email, if any. */
  function FindByEmail(store: Users, email: string): (r: Option<Id>)
    ensures r.None? <==> !EmailTaken(store, email)
    ensures r.Some? ==> r.value in store && store[r.value].email == email
    ensures r.Some? ==> forall id :: id in store && store[id].email == email ==> r.value <= id
  {
    var matching := set id | id in store && store[id].email == email;
    assert forall id :: id in store && store[id].email == email ==> id in matching;
    if matching == {} then None
    else
      HasLeast(matching);
      var m: nat :| IsLeast(matching, m);
      Some(m)
  }

  /** Under the unique-email invariant the lookup finds THE user with that
      email. */
  lemma FindByEmailUnique(store: Users, id: Id)
    requires Valid(store) && id in store
    ensures FindByEmail(store, store[id].email) == Some(id)
  {
  }

  /** The database: the user records and the id its generator hands out
      next. The generator only counts up, so an id once handed out is never
      handed out again, even after its record is deleted. */
  datatype Db = Db(users: Users, nextId: Id)

  /** Every stored id was handed out before `nextId`. */
  predicate IdsIssued(db: Db) {
    forall id :: id in db.users ==> id < db.nextId
  }

  /** The invariants of the database between requests. */
  predicate Consistent(db: Db) {
    Valid(db.users) && IdsIssued(db)
  }

  /** An id written out in decimal, as it appears in an error's `keyValue`. */
  function IdText(id: Id): (s: string)
    ensures 1 <= |s|
    ensures forall i :: 0 <= i < |s| ==> '0' <= s[i] <= '9'
    ensures id < 10 <==> |s| == 1
  {
    var digit := (48 + id % 10) as char;
    if id < 10 then [digit] else IdText(id / 10) + [digit]
  }

  /** Different ids are written differently. */
  lemma {:induction false} IdTextInjective(a: Id, b: Id)
    requires IdText(a) == IdText(b)
    ensures a == b
  {
    var sa, sb := IdText(a), IdText(b);
    assert sa[|sa| - 1] == sb[|sb| - 1];
    assert a % 10 == b % 10;
    if a >= 10 {
      assert b >= 10;
      assert sa[..|sa| - 1] == IdText(a / 10);
      assert sb[..|sb| - 1] == IdText(b / 10);
      IdTextInjective(a / 10, b / 10);
    }
  }

  /** The listing order: newer creation time first; on equal creation times,
      the later inserted (larger id) first. `Newer(ta, a, tb, b)` says the
      record `a` created at `ta` is listed no later than `b` created at `tb`;
      `Precedes` is its strict form. */
  predicate Newer(ta: Time, a: Id, tb: Time, b: Id) {
    ta > tb || (ta == tb && a >= b)
  }

  predicate Precedes(ta: Time, a: Id, tb: Time, b: Id) {
    ta > tb || (ta == tb && a > b)
  }

  /** `a` is listed no later than any record of `ks`. */
  predicate NewestIn(store: Users, ks: set<Id>, a: Id)
    requires ks <= store.Keys
  {
    a in ks && forall b :: b in ks ==> Newer(store[a].createdAt, a, store[b].createdAt, b)
  }

  lemma {:induction false} NewestExists(store: Users, ks: set<Id>)
    requires ks != {} && ks <= store.Keys
    ensures exists a :: NewestIn(store, ks, a)
  {
    var y :| y in ks;
    if ks == {y} {
      assert NewestIn(store, ks, y);
    } else {
      var rest := ks - {y};
      NewestExists(store, rest);
      var a :| NewestIn(store, rest, a);
      var ta, ty := store[a].createdAt, store[y].createdAt;
      if Newer(ta, a, ty, y) {
        forall b | b in ks
          ensures Newer(ta, a, store[b].createdAt, b)
        {
          if b != y { assert b in rest; }
        }
        assert NewestIn(store, ks, a);
      } else {
        forall b | b in ks
          ensures Newer(ty, y, store[b].createdAt, b)
        {
          if b != y {
            assert b in rest;
            assert Newer(ta, a, store[b].createdAt, b);
          }
        }
        assert NewestIn(store, ks, y);
      }
    }
  }

  /** At most one record is newest: the listing order is total. */
  lemma NewestUnique(store: Users)
    ensures forall a, b :: NewestIn(store, store.Keys, a) && NewestIn(store, store.Keys, b) ==> a == b
  {
  }

  /** `ids` lists every record of `store`, newest first. The order is
      strict, so no record is listed twice. */
  ghost predicate ListsNewestFirst(store: Users, ids: seq<Id>) {
    && |ids| == |store|
    && (forall i :: 0 <= i < |ids| ==> ids[i] in store)
    && (forall k :: k in store ==> k in ids)
    && (forall i, j :: 0 <= i < j < |ids| ==>
          Precedes(store[ids[i]].createdAt, ids[i], store[ids[j]].createdAt, ids[j]))
  }

  /** `User.find().sort({ createdAt: -1 })`: every id of the store exactly
      once, newest first. */
  function NewestFirst(store: Users): (ids: seq<Id>)
    ensures ListsNewestFirst(store, ids)
    decreases |store|
  {
    if store == map[] then []
    else
      NewestExists(store, store.Keys);
      NewestUnique(store);
      var a :| NewestIn(store, store.Keys, a);
      var rest := store - {a};
      assert |rest| < |store| by {
        assert rest.Keys == store.Keys - {a};
      }
      var tail := NewestFirst(rest);
      PrependNewest(store, a, tail);
      [a] + tail
  }

  /** A newest-first listing has no repeated id. */
  lemma NewestFirstDistinct(store: Users, ids: seq<Id>, i: nat, j: nat)
    requires ListsNewestFirst(store, ids) && i < j < |ids|
    ensures ids[i] != ids[j]
  {
    assert Precedes(store[ids[i]].createdAt, ids[i], store[ids[j]].createdAt, ids[j]);
  }

  /** The records of a listing of `store - {a}` are records of `store`
      other than `a`, unchanged. */
  lemma TailFromRest(store: Users, a: Id, tail: seq<Id>, i: nat)
    requires ListsNewestFirst(store - {a}, tail) && i < |tail|
    ensures tail[i] in store && tail[i] != a && store[tail[i]] == (store - {a})[tail[i]]
  {
    assert tail[i] in store - {a};
  }

  /** The newest record precedes every record of a listing of the others. */
  lemma {:induction false} NewestPrecedesTail(store: Users, a: Id, tail: seq<Id>)
    requires NewestIn(store, store.Keys, a)
    requires ListsNewestFirst(store - {a}, tail)
    ensures forall j :: 0 <= j < |tail| ==>
              tail[j] in store && Precedes(store[a].createdAt, a, store[tail[j]].createdAt, tail[j])
  {
    forall j | 0 <= j < |tail|
      ensures tail[j] in store && Precedes(store[a].createdAt, a, store[tail[j]].createdAt, tail[j])
    {
      TailFromRest(store, a, tail, j);
      assert Newer(store[a].createdAt, a, store[tail[j]].createdAt, tail[j]);
    }
  }

  /** The order of a listing of the other records carries over to `store`. */
  lemma {:induction false} TailKeepsOrder(store: Users, a: Id, tail: seq<Id>)
    requires ListsNewestFirst(store - {a}, tail)
    ensures forall i, j :: 0 <= i < j < |tail| ==>
              tail[i] in store && tail[j] in store &&
              Precedes(store[tail[i]].createdAt, tail[i], store[tail[j]].createdAt, tail[j])
  {
    forall i, j | 0 <= i < j < |tail|
      ensures tail[i] in store && tail[j] in store &&
              Precedes(store[tail[i]].createdAt, tail[i], store[tail[j]].createdAt, tail[j])
    {
      TailFromRest(store, a, tail, i);
      TailFromRest(store, a, tail, j);
    }
  }

  /** Putting the newest record in front of a newest-first listing of the
      other records lists the whole store newest-first. */
  lemma {:induction false} PrependNewest(store: Users, a: Id, tail: seq<Id>)
    requires NewestIn(store, store.Keys, a)
    requires ListsNewestFirst(store - {a}, tail)
    ensures ListsNewestFirst(store, [a] + tail)
  {
    var rest := store - {a};
    assert rest.Keys == store.Keys - {a};
    assert |rest.Keys| == |store.Keys| - 1;
    var ids := [a] + tail;
    NewestPrecedesTail(store, a, tail);
    TailKeepsOrder(store, a, tail);
    forall i | 0 <= i < |ids|
      ensures ids[i] in store
    {
      if i > 0 { assert ids[i] == tail[i - 1]; }
    }
    forall i, j | 0 <= i < j < |ids|
      ensures Precedes(store[ids[i]].createdAt, ids[i], store[ids[j]].createdAt, ids[j])
    {
      assert ids[j] == tail[j - 1];
      if i > 0 {
        assert ids[i] == tail[i - 1];
      }
    }
    forall k | k in store
      ensures k in ids
    {
      if k != a { assert k in rest; }
    }
  }
}

=== FILE: wrappers.dfy ===
/** Optional values: `None` stands for JavaScript's `undefined`/`null` wherever
    the service reads a field that may be missing. */
module Wrappers {

  datatype Option<+T> = None | Some(value: T) {

    /** Returns the value in `Some`, or `default` when absent: a JavaScript
        default parameter, which applies only to `undefined`. */
    function GetOr(default: T): T {
      match this
      case Some(v) => v
      case None => default
    }
  }
}
